=== FILE: README.md ===
# A verified model of the greeting page's state logic

The page (`script.js`) is an interactive greeting. The visitor opens an
envelope, which scatters 60 flowers and 20 pollen grains into a physics world.
They then answer a four-step quiz, and the last correct answer brings up a
yes/no question. On "yes" the world is torn down and a bouquet of three lilies
grows on a canvas. The lilies grow under a field of fireflies, and a message
fades in once the blooms open.

This project models the sequential logic inside that glue as immutable
records and pure step functions, and proves properties of them:

- `QuizFlow` (`Quiz.dfy`) covers the global `state` (`Initial`, `Quiz`,
  `Question`, `Final`), the quiz steps with their accepted answers,
  `currentQuizIndex`, and the envelope, quiz-button and "yes" handlers.
  Answers are lower-cased and then tested for membership. A handler that
  throws (reading `quizSteps[i]` past the end) is the `Fault` effect.
- `Growth` (`Growth.dfy`) covers the `Lily` class: the constructor's fields
  and `update`. The stem grows by `speed` and drops a leaf marker on every
  multiple of 40. The bloom then eases up to `finalBloomSize`. It also covers
  the bloom guard of `draw`.
- `Bouquet` (`Bouquet.dfy`) covers `startTreeAnimation` with its
  `animationStarted` guard. It also covers one frame of `animateBouquet`
  (update every lily and take `maxBloom`) and the `drawMessage` gate and
  opacity.
- `Fireflies` (`Fireflies.dfy`) covers the lazy spawn of 80 fireflies and the
  per-frame move with edge-to-edge wrap-around.
- `Explosion` (`Explosion.dfy`) covers the spawning loop of `createExplosion`.
- `Page` (`Page.dfy`) puts these together into one page state driven by the
  four events. It proves an invariant that every event keeps.

Lengths and sizes are exact `real`s. Every `Math.random()` is an input in
[0, 1), the `Random.Unit` predicate (`Random.dfy`) shared by every module that draws a random value. The value `-Math.PI / 2` is a parameter (`up`).

`update` lets the last growth step pass `stemHeight` by less than `speed`:
`Growth.Inv` bounds the overshoot and `Growth.StemOvershootsHeight` exhibits
it.

## Model

| member | source | states |
|---|---|---|
| QuizFlow.ToLower | script.js:101 | lower-casing keeps the length, maps each character by itself, and leaves no upper-case letter |
| QuizFlow.LowerFixesLower | script.js:101 | a string without upper-case letters is unchanged by lower-casing |
| QuizFlow.LowerIdempotent | script.js:101 | lower-casing twice equals lower-casing once |
| QuizFlow.AcceptsIgnoringCase | script.js:101-104 | when all accepted answers are lower case, a step accepts an answer iff it equals some accepted answer up to case (both directions) |
| QuizFlow.QuizStepsLower | script.js:84-89 | every accepted answer of the shipped quiz is lower case, so the case-insensitive match applies to all of them |
| QuizFlow.ShoutedGreenAccepted | script.js:86 | "GREEN" is accepted by the colour step and "GREY" is not |
| QuizFlow.OpenEnvelope | script.js:93-97 | the envelope sets the phase to quiz without resetting the index and shows the first step; with no steps the handler throws after the phase is written |
| QuizFlow.Answer | script.js:99-120 | an accepted answer advances the index by exactly one; a rejected one shakes and changes nothing; past the end the handler throws and changes nothing; an accepted answer short of the last step keeps the phase and shows the next step; an accepted answer to the last step enters the question phase with the quiz complete; the phase changes only to question and only then |
| QuizFlow.SayYes | script.js:137-138 | "yes" makes the phase final from any phase and keeps the index |
| QuizFlow.DispatchKeepsInv | script.js:93-138 | every handler keeps the index within the quiz and allows the question phase only with the quiz complete |
| QuizFlow.RunKeepsInv | script.js:93-138 | that invariant holds after any sequence of clicks |
| QuizFlow.CorrectAnswersReachQuestion | script.js:102-114 | answering steps in order with accepted answers puts the index at the number answered; the phase stays quiz until the last step and is question exactly then |
| QuizFlow.WrongAnswerChangesNothing | script.js:115-118 | a rejected answer leaves phase and index unchanged and shakes the button |
| QuizFlow.ShippedQuizFlow | script.js:84-114 | on the shipped quiz, the envelope shows "quiz-q1" and the mixed-case answers "9/9/23", "GREEN", "Cat", "NICOLE" reach the question phase with index 4 |
| Growth.NewLily | script.js:354-372 | a new lily keeps its start point, angle, mobile flag and index as given, has nothing grown yet and satisfies the lily invariant; its step is 2 and its bloom step 0.01, its colour is the index's pink, and its stem height and final bloom depend on the mobile flag |
| Growth.LeafOffset | script.js:378 | a leaf's offset is 0.6 in an even 40-unit interval and -0.6 in an odd one, and nothing else |
| Growth.Update | script.js:374-384 | only the stem length, bloom size and leaves change; a growing stem advances by exactly `speed` with the bloom waiting; a grown stem is frozen; the bloom moves only on a grown stem below its final size; leaves grow by at most one, iff the new floored length is a multiple of 40, recording that length and the alternating offset |
| Growth.Frames | script.js:374-384 | any number of frames leaves the constructor's fields untouched |
| Growth.UpdateKeepsInv | script.js:374-384 | update keeps the invariant: overshoot of the stem and of the bloom below one step, bloom 0 while growing, leaves on marks below the tip in order at least one step apart |
| Growth.FramesKeepInv | script.js:374-384 | over any frames the invariant holds, the stem and bloom never shrink, and earlier leaves are kept as a prefix |
| Growth.BloomVisibleIffOpened | script.js:418 | on a reachable lily the bloom guard holds iff the bloom size is positive |
| Growth.FullyOpenIsFixed | script.js:381-383 | a grown lily whose bloom has reached its final size no longer changes |
| Growth.IntervalOnMark | script.js:377-378 | on a leaf mark the interval index times 40 is the floored length |
| Growth.MarksApart | script.js:377-378 | two leaf marks at least one unit apart fall in different 40-unit intervals, the further one in the higher interval |
| Growth.LeavesInDistinctIntervals | script.js:377-379 | with a step of at least 1, leaves lie in strictly increasing intervals, so no interval gets two leaves |
| Growth.IntervalOfMark | script.js:378 | the interval of the length 40m is m |
| Growth.GrowOneFrame | script.js:375-379 | one growing frame of a step-2 lily keeps its leaves exactly at the multiples of 40 passed |
| Growth.SproutGrowth | script.js:365-379 | from a new step-2 lily, n growing frames leave the tip at 2n, the bloom at 0, and one leaf at each multiple of 40 up to the tip, in order, alternating sides starting with -0.6 |
| Growth.StemOvershootsHeight | script.js:364-376 | on a desktop viewport 835 high the stem stops at 502, past its height of 501 |
| Bouquet.MaxBloom | script.js:456-461 | the running maximum is non-negative, at least every bloom size, and either 0 or the bloom size of some lily |
| Bouquet.MessageOpacity | script.js:463-471 | the message is drawn iff the maximum bloom exceeds 0.1, with opacity in (0.15, 1], equal to 1 iff 1.5 times the maximum reaches 1 and to 1.5 times the maximum otherwise |
| Bouquet.UpdateAll | script.js:457-458 | every lily is updated with its own draw |
| Bouquet.AnimateFrame | script.js:449-468 | the single pass over the lilies agrees with updating them all and then taking the maximum, and a drawn message always belongs to a lily whose bloom is visible |
| Bouquet.MaxBloomMonotone | script.js:456-461 | the maximum never drops when blooms only grow and lilies are only appended |
| Bouquet.Planting | script.js:426-441 | three new lilies with indices 0 to 2 are planted at bottom centre, mobile iff the width is below 768 |
| Bouquet.StartTreeAnimation | script.js:426-447 | the three new lilies are exactly the plantings, appended after the existing ones, and the started flag is set; a running loop leaves the existing lilies alone, while a first start runs one frame over them before the plantings land and starts one loop; on a scene satisfying the invariant exactly one loop runs afterwards, however often it is called |
| Bouquet.Tick | script.js:457-459 | a frame updates every lily with its own draw and keeps the loop state |
| Bouquet.TickKeepsInv | script.js:457-461 | a frame keeps every lily's invariant and never lowers the maximum bloom |
| Bouquet.MessageStaysShown | script.js:456-465 | once the message shows it keeps showing after later frames and later plantings |
| Fireflies.Scale | script.js:500-501 | a random fraction of an extent lies in [0, extent], below a positive extent |
| Fireflies.Spawn | script.js:498-508 | a spawned firefly lies inside the canvas, with size in [0.5, 2), speeds in [-0.4, 0.4), and one of the two colours |
| Fireflies.Wrap | script.js:518-521 | a wrapped coordinate lies in [0, extent]; below 0 it becomes the far edge, beyond the far edge it becomes 0, and otherwise it is kept |
| Fireflies.WrapIdempotent | script.js:518-521 | wrapping twice equals wrapping once |
| Fireflies.Step | script.js:512-521 | a firefly step ends inside the canvas, changes only position and oscillator, moves by exactly its velocity when that stays inside, and reappears on the opposite edge when it leaves |
| Fireflies.WrapsAcrossRightEdge | script.js:513-519 | a firefly crossing the right edge reappears at 0 and the next frame carries it in by its velocity |
| Fireflies.StepAll | script.js:512 | every firefly takes its own step |
| Fireflies.FireflyFrame | script.js:496-521 | the swarm is spawned with 80 fireflies only when empty, its count never changes afterwards, and every firefly is inside the canvas after the frame |
| Fireflies.DrawFireflies | script.js:496-521 | the spawn loop and the step loop compute the same swarm as the one-function frame |
| Explosion.PickColor | script.js:202-207 | the colour picked is one of the six palette colours |
| Explosion.SpawnAt | script.js:204-231 | one spawn index yields a flower with scale in [0.5, 1.3) and radius 15 times the scale, plus, iff the index is a multiple of 3, a pollen grain at the same point with radius in [3, 6); all within 25 of the centre |
| Explosion.CountsAppend | script.js:222-230 | flower and pollen counts add over concatenation |
| Explosion.PollenSpawnsAppend | script.js:224-230 | pollen spawn indices unite over concatenation |
| Explosion.CountsOne | script.js:222-230 | a single body counts as one flower or one pollen grain |
| Explosion.SpawnAtCounts | script.js:222-231 | one spawn index adds one flower, and one pollen grain at that index iff it is a multiple of 3 |
| Explosion.PollenIndicesStep | script.js:224 | the multiples of 3 below n+1 are those below n plus n when n is one |
| Explosion.LayoutCounts | script.js:204-231 | after n spawn indices there are n flowers and (n+2)/3 pollen grains |
| Explosion.ThirdsStep | script.js:224 | one more spawn index adds a grain to the (n+2)/3 count exactly when the index is a multiple of three |
| Explosion.LayoutPollenSpawns | script.js:224-231 | after n spawn indices the pollen grains sit exactly at the multiples of 3 below n |
| Explosion.CountsCover | script.js:210-230 | every body is a flower or a pollen grain |
| Explosion.CreateExplosion | script.js:200-232 | the loop yields 80 bodies, 60 flowers and 20 pollen grains, with grains at indices 0, 3, ..., 57, all near the centre |
| Page.Loaded | script.js:52-90 | the page as loaded satisfies the page invariant |
| Page.Dispatch | script.js:93-153 | bodies are only added to the world until "yes" empties it; a stopped world is never restarted and only "yes" stops it; a started bouquet loop stays started and frames before it change nothing; a quiz button moves the quiz globals as its handler does; the envelope runs its handler and adds one explosion; "yes" runs its handler and `startTreeAnimation`; a frame touches neither the quiz nor the world; a frame of the running loop updates the scene and every firefly, and the first "yes" runs one firefly frame, spawning the swarm; no event changes the viewport |
| Page.ExplosionSize | script.js:200-234 | one explosion adds 80 bodies to the world |
| Page.DispatchKeepsInv | script.js:93-153 | every event keeps the page invariant: quiz invariant, world size a multiple of 80, at most one bouquet loop, the final phase only with it running, and 80 fireflies inside the canvas exactly when the loop runs |
| Page.YesTearsDownWorld | script.js:137-153 | after "yes" the phase is final, the world is empty and stopped, exactly one bouquet loop runs, and the 80 fireflies exist |
| Page.FirstEnvelope | script.js:93-97 | opening the envelope on the loaded page enters the quiz at step 0 and adds 80 bodies |

## Left out

- Matter.js itself is not modelled. That covers the engine, renderer, runner, mouse constraint, walls, `applyForce` and `setAngularVelocity` (script.js:1-49, 234-243). It is a foreign library, so bodies are records of the parameters passed to it.
- DOM, timers and audio are not modelled. That covers panel fades (`transitionUI`), the shake class removal, `bgMusic.play` and its catch path, the `startBtn` loader, and resize handling. They are UI plumbing. The 0/400/800 ms stagger of the three plantings is dropped: all three land together, right after the first frame of the loop, so the frames a real page runs between the three timers are not modelled.
- Canvas drawing is not modelled: `drawLily`, `drawLeaf`, the stroke and shadow code in `Lily.draw`, the text of `drawMessage`, `drawGrassStatic`, and `getLilyTexture`. Only the guards and the opacity that decide what is drawn are kept.
- `moveNoButton` is not modelled. It is random layout of the evasive button.
- Sinusoidal sway, the firefly alpha `|sin(osc)|` and the message float are trigonometric floats. The model keeps the oscillator but not the alpha.
- Floating point is not modelled. Reals are exact, so `bloomSize += 0.01` reaches `finalBloomSize` exactly instead of IEEE rounding.
- QuizFlow.ToLower: models `toLowerCase` on the ASCII letters only. The accepted answers (script.js:84-89) are ASCII; the button values live in the page markup, which is not modelled, and a non-ASCII value there could lower-case differently.
- The viewport is fixed for the life of a `Page`. Resizing changes the canvas between frames and is not modelled.

=== FILE: Bouquet.dfy ===
/**
  The final scene: `startTreeAnimation` plants three lilies and starts the
  frame loop at most once (the `animationStarted` guard); each frame of
  `animateBouquet` updates every lily, takes the largest bloom size, and
  draws the message, fading in with that size, once it passes 0.1.

  The stagger of the three plantings (0, 400 and 800 ms timers) is not
  modelled: the three lilies are planted at once.
 */
module Bouquet {
  import opened Random
  import opened Growth

  datatype Option<T> = None | Some(value: T)

  /** The bloom size above which the message is drawn. */
  const MessageThreshold: real := 0.1

  /** `maxBloom` in `animateBouquet`: it starts at 0 and takes, in list
      order, every bloom size that exceeds it. */
  function MaxBloom(lilies: seq<Lily>): (m: real)
    ensures m >= 0.0
    ensures forall k :: 0 <= k < |lilies| ==> lilies[k].bloomSize <= m
    ensures m == 0.0 || exists k :: 0 <= k < |lilies| && lilies[k].bloomSize == m
    decreases |lilies|
  {
    if |lilies| == 0 then 0.0
    else
      var m := MaxBloom(lilies[..|lilies| - 1]);
      var b := lilies[|lilies| - 1].bloomSize;
      if b > m then b else m
  }

  /** `drawMessage` is called only above the threshold, with opacity
      `Math.min(1, 1.5 * maxBloom)`. */
  function MessageOpacity(maxBloom: real): (r: Option<real>)
    ensures r.Some? <==> maxBloom > MessageThreshold
    ensures r.Some? ==> 0.15 < r.value <= 1.0
    ensures r.Some? ==> (r.value == 1.0 <==> 1.5 * maxBloom >= 1.0)
    ensures r.Some? && 1.5 * maxBloom < 1.0 ==> r.value == 1.5 * maxBloom
  {
    if maxBloom > MessageThreshold then
      Some(if 1.0 <= maxBloom * 1.5 then 1.0 else maxBloom * 1.5)
    else None
  }

  /** Every lily's `update`, one random draw each. */
  function UpdateAll(lilies: seq<Lily>, us: seq<real>): (r: seq<Lily>)
    requires |us| == |lilies| && AllUnit(us)
    ensures |r| == |lilies|
    ensures forall k :: 0 <= k < |r| ==> r[k] == Update(lilies[k], us[k])
  {
    seq(|lilies|, k requires 0 <= k < |lilies| => Update(lilies[k], us[k]))
  }

  /** One frame of `animateBouquet`, written as `script.js` does it, in a single pass: each
      lily is updated and then compared against the running maximum. It
      agrees with the list-at-a-time definitions above, and the message it
      draws always belongs to a lily whose bloom is visible. */
  method AnimateFrame(lilies: seq<Lily>, us: seq<real>) returns (next: seq<Lily>, maxBloom: real, message: Option<real>)
    requires |us| == |lilies| && AllUnit(us)
    ensures next == UpdateAll(lilies, us)
    ensures maxBloom == MaxBloom(next)
    ensures message == MessageOpacity(maxBloom)
    ensures (forall k :: 0 <= k < |lilies| ==> Inv(lilies[k])) && message.Some? ==>
              exists k :: 0 <= k < |next| && BloomVisible(next[k]) && next[k].bloomSize == maxBloom
  {
    next := [];
    maxBloom := 0.0;
    var i := 0;
    while i < |lilies|
      invariant 0 <= i <= |lilies|
      invariant |next| == i
      invariant forall k :: 0 <= k < i ==> next[k] == Update(lilies[k], us[k])
      invariant maxBloom == MaxBloom(next)
    {
      var l := Update(lilies[i], us[i]);
      assert (next + [l])[..i] == next;
      if l.bloomSize > maxBloom {
        maxBloom := l.bloomSize;
      }
      next := next + [l];
      i := i + 1;
    }
    message := MessageOpacity(maxBloom);
    if (forall k :: 0 <= k < |lilies| ==> Inv(lilies[k])) && message.Some? {
      var k :| 0 <= k < |next| && next[k].bloomSize == maxBloom;
      UpdateKeepsInv(lilies[k], us[k]);
      BloomVisibleIffOpened(next[k]);
    }
  }

  /** The maximum never drops when every bloom size stays or grows and
      lilies are only appended. */
  lemma {:induction false} MaxBloomMonotone(before: seq<Lily>, after: seq<Lily>)
    requires |before| <= |after|
    requires forall k :: 0 <= k < |before| ==> before[k].bloomSize <= after[k].bloomSize
    ensures MaxBloom(before) <= MaxBloom(after)
  {
  }

  // ---------------------------------------------------------------------------
  // The scene and the start guard

  /** The lily list, the `animationStarted` flag, and how many frame loops
      have been started. */
  datatype Scene = Scene(lilies: seq<Lily>, animationStarted: bool, loops: nat)

  const Idle: Scene := Scene([], false, 0)

  /** What every reachable scene satisfies: exactly one loop runs once the
      flag is set and none before, and every lily keeps its invariant. */
  predicate SceneInv(s: Scene) {
    && s.loops == (if s.animationStarted then 1 else 0)
    && forall k :: 0 <= k < |s.lilies| ==> Inv(s.lilies[k])
  }

  /** The three plantings: bottom centre, fanned 0.3 rad either side of
      straight up. `up` stands for `-Math.PI / 2`. */
  function Planting(width: real, height: real, up: real): (r: seq<Lily>)
    requires height >= 0.0
    ensures |r| == 3
    ensures forall k :: 0 <= k < 3 ==>
              Sprout(r[k]) && Inv(r[k]) && r[k].index == k && r[k].isMobile == (width < 768.0)
              && r[k].startX == width / 2.0 && r[k].startY == height
  {
    var mobile := width < 768.0;
    [NewLily(width / 2.0, height, up, mobile, 0, height),
     NewLily(width / 2.0, height, up - 0.3, mobile, 1, height),
     NewLily(width / 2.0, height, up + 0.3, mobile, 2, height)]
  }

  /** A frame of the loop: update every lily. */
  function Tick(s: Scene, us: seq<real>): (r: Scene)
    requires |us| == |s.lilies| && AllUnit(us)
    ensures r.lilies == UpdateAll(s.lilies, us)
    ensures r.animationStarted == s.animationStarted && r.loops == s.loops
  {
    s.(lilies := UpdateAll(s.lilies, us))
  }

  /** `startTreeAnimation`. The three plantings run from timers, so they land
      after the handler returns; when the loop is not yet running, the handler
      first starts it, and that runs one frame at once over the lilies already
      there (`us` are that frame's draws). */
  function StartTreeAnimation(s: Scene, width: real, height: real, up: real, us: seq<real>): (r: Scene)
    requires height >= 0.0
    requires !s.animationStarted ==> |us| == |s.lilies| && AllUnit(us)
    ensures r.animationStarted
    ensures |r.lilies| == |s.lilies| + 3
    // the three new lilies are exactly the plantings, appended after the rest
    ensures r.lilies[|s.lilies|..] == Planting(width, height, up)
    // a running loop is left alone; a new one first runs a frame over the old lilies
    ensures s.animationStarted ==> r.lilies[..|s.lilies|] == s.lilies && r.loops == s.loops
    ensures !s.animationStarted ==>
              r.lilies[..|s.lilies|] == Tick(s, us).lilies && r.loops == s.loops + 1
    ensures SceneInv(s) ==> SceneInv(r) && r.loops == 1
  {
    var planting := Planting(width, height, up);
    if !s.animationStarted then
      var first := Tick(s, us);
      assert (first.lilies + planting)[..|s.lilies|] == first.lilies;
      Scene(first.lilies + planting, true, s.loops + 1)
    else
      assert (s.lilies + planting)[..|s.lilies|] == s.lilies;
      s.(lilies := s.lilies + planting)
  }

  /** A frame keeps the scene invariant and never lowers the largest bloom. */
  lemma TickKeepsInv(s: Scene, us: seq<real>)
    requires SceneInv(s) && |us| == |s.lilies| && AllUnit(us)
    ensures SceneInv(Tick(s, us))
    ensures MaxBloom(s.lilies) <= MaxBloom(Tick(s, us).lilies)
  {
  }

  /** Once the message shows, it keeps showing, through any later frames and
      any later plantings. */
  lemma MessageStaysShown(s: Scene, us: seq<real>, width: real, height: real, up: real)
    requires SceneInv(s) && |us| == |s.lilies| && AllUnit(us) && height >= 0.0
    requires MessageOpacity(MaxBloom(s.lilies)).Some?
    ensures MessageOpacity(MaxBloom(Tick(s, us).lilies)).Some?
    ensures MessageOpacity(MaxBloom(StartTreeAnimation(s, width, height, up, us).lilies)).Some?
  {
  }
}

=== FILE: Explosion.dfy ===
/**
  `createExplosion`: the bodies spawned when the envelope opens. Each of 60
  spawn indices makes one flower near the viewport centre, and every third
  index, starting at 0, also makes a pollen grain at the same point. The
  physics engine, the impulse pass and the sprite texture are not modelled;
  the bodies are records of the parameters the loop passes to the engine.
 */
module Explosion {
  import opened Random

  /** The `Math.random()` draws of one spawn index, in the order the loop
      makes them; `pollen` is used only on every third index. */
  datatype Draw = Draw(dx: real, dy: real, color: real, scale: real, pollen: real)

  datatype Kind = Flower(color: string, scale: real, friction: real) | Pollen

  datatype Body = Body(kind: Kind, spawn: nat, x: real, y: real, radius: real,
                       restitution: real, frictionAir: real)

  const Colors: seq<string> := ["#ff9a9e", "#fecfef", "#ff758c", "#ff4d6d", "#ff1493", "#fff9c4"]

  /** The loop bound. */
  const FlowerCount: nat := 60

  /** Half the side of the square around the centre that bodies spawn in. */
  const Spread: real := 25.0

  predicate DrawOk(d: Draw) {
    Unit(d.dx) && Unit(d.dy) && Unit(d.color) && Unit(d.scale) && Unit(d.pollen)
  }

  predicate AllDrawsOk(ds: seq<Draw>) {
    forall k :: 0 <= k < |ds| ==> DrawOk(ds[k])
  }

  /** `colors[Math.floor(Math.random() * colors.length)]`. */
  function PickColor(u: real): (c: string)
    requires Unit(u)
    ensures c in Colors
  {
    var k := (u * 6.0).Floor;
    assert 0 <= k < 6;
    Colors[k]
  }

  /** The bodies pushed for spawn index `i`: a flower, then, when `i % 3 == 0`,
      a pollen grain at the same point. */
  function SpawnAt(i: nat, d: Draw, width: real, height: real): (bs: seq<Body>)
    requires DrawOk(d)
    ensures |bs| == (if i % 3 == 0 then 2 else 1)
    ensures bs[0].kind.Flower? && bs[0].spawn == i
    ensures 0.5 <= bs[0].kind.scale < 1.3 && bs[0].radius == 15.0 * bs[0].kind.scale
    ensures |bs| == 2 ==> bs[1].kind.Pollen? && bs[1].spawn == i
                          && bs[1].x == bs[0].x && bs[1].y == bs[0].y && 3.0 <= bs[1].radius < 6.0
    ensures forall b :: b in bs ==> NearCentre(b, width, height)
  {
    var x := width / 2.0 + (d.dx - 0.5) * 50.0;
    var y := height / 2.0 + (d.dy - 0.5) * 50.0;
    var scale := 0.5 + d.scale * 0.8;
    var flower := Body(Flower(PickColor(d.color), scale, 0.0), i, x, y, 15.0 * scale, 0.9, 0.005);
    if i % 3 == 0 then [flower, Body(Pollen, i, x, y, 3.0 + d.pollen * 3.0, 0.6, 0.02)]
    else [flower]
  }

  /** Every body starts in a 50 by 50 square around the viewport centre. */
  predicate NearCentre(b: Body, width: real, height: real) {
    width / 2.0 - Spread <= b.x < width / 2.0 + Spread
    && height / 2.0 - Spread <= b.y < height / 2.0 + Spread
  }

  /** The body list after the loop has run over the given draws. */
  function Layout(ds: seq<Draw>, width: real, height: real): seq<Body>
    requires AllDrawsOk(ds)
    decreases |ds|
  {
    if |ds| == 0 then []
    else Layout(ds[..|ds| - 1], width, height) + SpawnAt(|ds| - 1, ds[|ds| - 1], width, height)
  }

  function Flowers(bs: seq<Body>): nat
    decreases |bs|
  {
    if |bs| == 0 then 0
    else Flowers(bs[..|bs| - 1]) + (if bs[|bs| - 1].kind.Flower? then 1 else 0)
  }

  function Pollens(bs: seq<Body>): nat
    decreases |bs|
  {
    if |bs| == 0 then 0
    else Pollens(bs[..|bs| - 1]) + (if bs[|bs| - 1].kind.Pollen? then 1 else 0)
  }

  lemma {:induction false} CountsAppend(a: seq<Body>, b: seq<Body>)
    ensures Flowers(a + b) == Flowers(a) + Flowers(b)
    ensures Pollens(a + b) == Pollens(a) + Pollens(b)
    decreases |b|
  {
    if |b| == 0 {
      assert a + b == a;
    } else {
      var b' := b[..|b| - 1];
      assert (a + b)[..|a + b| - 1] == a + b';
      assert (a + b)[|a + b| - 1] == b[|b| - 1];
      CountsAppend(a, b');
    }
  }

  /** The pollen spawn indices below `n`: the multiples of three. */
  function PollenIndices(n: nat): set<nat> {
    set i: nat | i < n && i % 3 == 0
  }

  /** The spawn indices that received a pollen grain. */
  function PollenSpawns(bs: seq<Body>): set<nat> {
    set k | 0 <= k < |bs| && bs[k].kind.Pollen? :: bs[k].spawn
  }

  lemma PollenSpawnsAppend(a: seq<Body>, b: seq<Body>)
    ensures PollenSpawns(a + b) == PollenSpawns(a) + PollenSpawns(b)
  {
    var ab := a + b;
    forall k | 0 <= k < |ab| && ab[k].kind.Pollen?
      ensures ab[k].spawn in PollenSpawns(a) + PollenSpawns(b)
    {
      if k < |a| {
        assert ab[k] == a[k];
      } else {
        assert ab[k] == b[k - |a|];
      }
    }
    forall s | s in PollenSpawns(a) + PollenSpawns(b)
      ensures s in PollenSpawns(ab)
    {
      if s in PollenSpawns(a) {
        var k :| 0 <= k < |a| && a[k].kind.Pollen? && a[k].spawn == s;
        assert ab[k] == a[k];
      } else {
        var k :| 0 <= k < |b| && b[k].kind.Pollen? && b[k].spawn == s;
        assert ab[|a| + k] == b[k];
      }
    }
  }

  /** The counts of a one-body list. */
  lemma CountsOne(b: Body)
    ensures Flowers([b]) == (if b.kind.Flower? then 1 else 0)
    ensures Pollens([b]) == (if b.kind.Pollen? then 1 else 0)
  {
  }

  /** What one spawn index contributes. */
  lemma SpawnAtCounts(i: nat, d: Draw, width: real, height: real)
    requires DrawOk(d)
    ensures Flowers(SpawnAt(i, d, width, height)) == 1
    ensures Pollens(SpawnAt(i, d, width, height)) == (if i % 3 == 0 then 1 else 0)
    ensures PollenSpawns(SpawnAt(i, d, width, height)) == (if i % 3 == 0 then {i} else {})
  {
    var bs := SpawnAt(i, d, width, height);
    CountsOne(bs[0]);
    if i % 3 == 0 {
      assert bs == [bs[0]] + [bs[1]];
      CountsOne(bs[1]);
      CountsAppend([bs[0]], [bs[1]]);
    } else {
      assert bs == [bs[0]];
    }
  }

  lemma PollenIndicesStep(n: nat)
    ensures PollenIndices(n + 1) == PollenIndices(n) + (if n % 3 == 0 then {n} else {})
  {
  }

  /** After `n` spawn indices: `n` flowers and one pollen grain for each
      multiple of three below `n`. */
  lemma {:induction false} LayoutCounts(ds: seq<Draw>, width: real, height: real)
    requires AllDrawsOk(ds)
    ensures Flowers(Layout(ds, width, height)) == |ds|
    ensures Pollens(Layout(ds, width, height)) == (|ds| + 2) / 3
    decreases |ds|
  {
    if |ds| > 0 {
      var n := |ds| - 1;
      LayoutCounts(ds[..n], width, height);
      assert Layout(ds, width, height) == Layout(ds[..n], width, height) + SpawnAt(n, ds[n], width, height);
      CountsAppend(Layout(ds[..n], width, height), SpawnAt(n, ds[n], width, height));
      SpawnAtCounts(n, ds[n], width, height);
      ThirdsStep(n);
    }
  }

  /** One more spawn index adds a grain exactly when the index is a multiple
      of three. */
  lemma ThirdsStep(n: nat)
    ensures (n + 3) / 3 == (n + 2) / 3 + (if n % 3 == 0 then 1 else 0)
  {
    var q, m := n / 3, n % 3;
    assert n == 3 * q + m;
    if m == 0 {
      assert (n + 3) / 3 == q + 1 && (n + 2) / 3 == q;
    } else if m == 1 {
      assert (n + 3) / 3 == q + 1 && (n + 2) / 3 == q + 1;
    } else {
      assert (n + 3) / 3 == q + 1 && (n + 2) / 3 == q + 1;
    }
  }

  /** After `n` spawn indices the grains sit exactly at the multiples of three
      below `n`. */
  lemma {:induction false} LayoutPollenSpawns(ds: seq<Draw>, width: real, height: real)
    requires AllDrawsOk(ds)
    ensures PollenSpawns(Layout(ds, width, height)) == PollenIndices(|ds|)
    decreases |ds|
  {
    if |ds| == 0 {
      assert PollenIndices(0) == {};
    } else {
      var n := |ds| - 1;
      LayoutPollenSpawns(ds[..n], width, height);
      PollenSpawnsAppend(Layout(ds[..n], width, height), SpawnAt(n, ds[n], width, height));
      SpawnAtCounts(n, ds[n], width, height);
      PollenIndicesStep(n);
    }
  }

  /** Every body is a flower or a pollen grain. */
  lemma {:induction false} CountsCover(bs: seq<Body>)
    ensures Flowers(bs) + Pollens(bs) == |bs|
    decreases |bs|
  {
    if |bs| > 0 {
      CountsCover(bs[..|bs| - 1]);
    }
  }

  /** The spawning loop of `createExplosion`. It yields exactly 60 flowers and
      20 pollen grains, 80 bodies in all, the grains at spawn indices
      0, 3, ..., 57, every body near the centre. */
  method CreateExplosion(ds: seq<Draw>, width: real, height: real) returns (bodies: seq<Body>)
    requires |ds| == FlowerCount && AllDrawsOk(ds)
    ensures bodies == Layout(ds, width, height)
    ensures |bodies| == 80 && Flowers(bodies) == 60 && Pollens(bodies) == 20
    ensures PollenSpawns(bodies) == PollenIndices(FlowerCount)
    ensures forall k :: 0 <= k < |bodies| ==> NearCentre(bodies[k], width, height)
  {
    bodies := [];
    var i := 0;
    while i < FlowerCount
      invariant 0 <= i <= FlowerCount
      invariant bodies == Layout(ds[..i], width, height)
      invariant forall k :: 0 <= k < |bodies| ==> NearCentre(bodies[k], width, height)
    {
      var spawned := SpawnAt(i, ds[i], width, height);
      assert ds[..i + 1][..i] == ds[..i];
      assert forall k :: 0 <= k < |spawned| ==> spawned[k] in spawned;
      bodies := bodies + spawned;
      i := i + 1;
    }
    assert ds[..FlowerCount] == ds;
    LayoutCounts(ds, width, height);
    LayoutPollenSpawns(ds, width, height);
    CountsCover(bodies);
  }
}

=== FILE: Fireflies.dfy ===
/**
  The firefly field of the final scene: 80 fireflies spawned once, on the
  first frame that finds the list empty, then moved by their velocity every
  frame and wrapped edge to edge within the canvas. The twinkle value
  `|sin(osc)|` and the drawing are not modelled; the oscillator itself is.
 */
module Fireflies {
  import opened Random

  datatype Firefly = Firefly(x: real, y: real, size: real, speedX: real, speedY: real,
                             osc: real, color: string)

  /** The random draws that create one firefly, each a `Math.random()`. The
      initial `alpha` draw is overwritten before first use and is omitted. */
  datatype Draw = Draw(x: real, y: real, size: real, speedX: real, speedY: real,
                       osc: real, color: real)

  const SwarmSize: nat := 80
  const OscStep: real := 0.03

  predicate DrawOk(d: Draw) {
    Unit(d.x) && Unit(d.y) && Unit(d.size) && Unit(d.speedX) && Unit(d.speedY)
    && Unit(d.osc) && Unit(d.color)
  }

  predicate InBounds(f: Firefly, width: real, height: real) {
    0.0 <= f.x <= width && 0.0 <= f.y <= height
  }

  /** `Math.random() * extent`: a point of `[0, extent]`, strictly below a
      positive extent. */
  function Scale(u: real, extent: real): (r: real)
    requires Unit(u) && extent >= 0.0
    ensures 0.0 <= r <= extent
    ensures extent > 0.0 ==> r < extent
  {
    assert u * extent >= 0.0;
    assert extent - u * extent == (1.0 - u) * extent;
    assert (1.0 - u) * extent >= 0.0;
    assert extent > 0.0 ==> (1.0 - u) * extent > 0.0;
    u * extent
  }

  /** One firefly as the spawning loop builds it. */
  function Spawn(d: Draw, width: real, height: real): (f: Firefly)
    requires DrawOk(d) && width >= 0.0 && height >= 0.0
    ensures InBounds(f, width, height)
    ensures width > 0.0 ==> f.x < width
    ensures height > 0.0 ==> f.y < height
    ensures 0.5 <= f.size < 2.0
    ensures -0.4 <= f.speedX < 0.4 && -0.4 <= f.speedY < 0.4
    ensures 0.0 <= f.osc < 100.0
    ensures f.color == "#fff9c4" || f.color == "#b2ff59"
  {
    Firefly(Scale(d.x, width), Scale(d.y, height), d.size * 1.5 + 0.5,
            (d.speedX - 0.5) * 0.8, (d.speedY - 0.5) * 0.8,
            d.osc * 100.0, if d.color > 0.5 then "#fff9c4" else "#b2ff59")
  }

  /** The two edge tests of one coordinate, in the order `script.js` makes them: below 0
      jumps to the far edge, beyond the far edge jumps to 0. */
  function Wrap(v: real, extent: real): (r: real)
    requires extent >= 0.0
    ensures 0.0 <= r <= extent
    ensures v < 0.0 ==> r == extent
    ensures v > extent ==> r == 0.0
    ensures 0.0 <= v <= extent ==> r == v
  {
    var a := if v < 0.0 then extent else v;
    if a > extent then 0.0 else a
  }

  /** Wrapping an in-range coordinate again changes nothing. */
  lemma WrapIdempotent(v: real, extent: real)
    requires extent >= 0.0
    ensures Wrap(Wrap(v, extent), extent) == Wrap(v, extent)
  {
  }

  /** One frame for one firefly. */
  function Step(f: Firefly, width: real, height: real): (r: Firefly)
    requires width >= 0.0 && height >= 0.0
    ensures InBounds(r, width, height)
    // only the position and the oscillator change
    ensures r.(x := f.x, y := f.y, osc := f.osc) == f
    ensures r.osc == f.osc + OscStep
    // within the canvas, the move is exactly the velocity
    ensures 0.0 <= f.x + f.speedX <= width ==> r.x == f.x + f.speedX
    ensures 0.0 <= f.y + f.speedY <= height ==> r.y == f.y + f.speedY
    // off an edge, the firefly reappears on the opposite edge
    ensures f.x + f.speedX > width ==> r.x == 0.0
    ensures f.x + f.speedX < 0.0 ==> r.x == width
    ensures f.y + f.speedY > height ==> r.y == 0.0
    ensures f.y + f.speedY < 0.0 ==> r.y == height
  {
    f.(x := Wrap(f.x + f.speedX, width), y := Wrap(f.y + f.speedY, height), osc := f.osc + OscStep)
  }

  /** A firefly crossing the right edge comes back on the left, and after one
      more frame it is as far in as its leftover velocity carries it. */
  lemma WrapsAcrossRightEdge(f: Firefly, width: real, height: real)
    requires width > 0.0 && height >= 0.0
    requires InBounds(f, width, height) && 0.0 < f.speedX <= width
    requires f.x + f.speedX > width
    ensures Step(f, width, height).x == 0.0
    ensures Step(Step(f, width, height), width, height).x == f.speedX
  {
  }

  /** Every firefly's step. */
  function StepAll(fs: seq<Firefly>, width: real, height: real): (r: seq<Firefly>)
    requires width >= 0.0 && height >= 0.0
    ensures |r| == |fs|
    ensures forall k :: 0 <= k < |r| ==> r[k] == Step(fs[k], width, height)
  {
    seq(|fs|, k requires 0 <= k < |fs| => Step(fs[k], width, height))
  }

  predicate SwarmDraws(draws: seq<Draw>) {
    |draws| == SwarmSize && forall k :: 0 <= k < |draws| ==> DrawOk(draws[k])
  }

  /** `drawFireflies` as one function: spawn the swarm on the first call that
      finds it empty, then step every firefly. */
  function FireflyFrame(fs: seq<Firefly>, draws: seq<Draw>, width: real, height: real): (r: seq<Firefly>)
    requires width >= 0.0 && height >= 0.0
    requires |fs| == 0 ==> SwarmDraws(draws)
    ensures |r| == (if |fs| == 0 then SwarmSize else |fs|)
    ensures forall k :: 0 <= k < |r| ==> InBounds(r[k], width, height)
  {
    var swarm := if |fs| == 0 then seq(SwarmSize, k requires 0 <= k < SwarmSize => Spawn(draws[k], width, height)) else fs;
    StepAll(swarm, width, height)
  }

  /** `drawFireflies` written as the two loops of `script.js`. The count never changes
      after the spawn, and every firefly is inside the canvas after every
      frame. */
  method DrawFireflies(fs: seq<Firefly>, draws: seq<Draw>, width: real, height: real)
    returns (r: seq<Firefly>)
    requires width >= 0.0 && height >= 0.0
    requires |fs| == 0 ==> SwarmDraws(draws)
    ensures r == FireflyFrame(fs, draws, width, height)
    ensures |fs| > 0 ==> forall k :: 0 <= k < |r| ==> r[k] == Step(fs[k], width, height)
    ensures |fs| == 0 ==> forall k :: 0 <= k < |r| ==> r[k] == Step(Spawn(draws[k], width, height), width, height)
  {
    var swarm := fs;
    if |fs| == 0 {
      swarm := [];
      var i := 0;
      while i < SwarmSize
        invariant 0 <= i <= SwarmSize
        invariant |swarm| == i
        invariant forall k :: 0 <= k < i ==> swarm[k] == Spawn(draws[k], width, height)
      {
        swarm := swarm + [Spawn(draws[i], width, height)];
        i := i + 1;
      }
    }
    r := [];
    var j := 0;
    while j < |swarm|
      invariant 0 <= j <= |swarm|
      invariant r == StepAll(swarm[..j], width, height)
    {
      assert swarm[..j + 1][..j] == swarm[..j];
      r := r + [Step(swarm[j], width, height)];
      j := j + 1;
    }
    assert swarm[..|swarm|] == swarm;
  }
}

=== FILE: Growth.dfy ===
/**
  The `Lily` class: a stem that grows by a fixed step each frame, drops a leaf
  marker whenever its floored length is a multiple of 40, and then opens a
  bloom whose size eases up to a final size.

  Lengths and sizes are exact reals; the random leaf size is an input in
  [0, 1). `script.js` tests `Math.floor(x) % n === 0` with JavaScript's
  truncating remainder; only whether the remainder is zero matters, and that
  agrees with Dafny's Euclidean `%`.
 */
module Growth {
  import opened Random

  /** A leaf marker: where along the stem it sits, its angle offset from the
      stem, and its relative size. */
  datatype Leaf = Leaf(len: real, offset: real, size: real)

  /** The fields of a `Lily` instance. */
  datatype Lily = Lily(
    startX: real, startY: real, targetAngle: real, isMobile: bool, index: nat,
    color: string,
    stemHeight: real, currentLen: real,
    bloomSize: real, finalBloomSize: real,
    speed: real, bloomSpeed: real,
    leaves: seq<Leaf>)

  const Pinks: seq<string> := ["#ff69b4", "#ff85a1", "#ff4d6d"]

  /** The stem length between two leaf markers. */
  const LeafSpacing: int := 40

  /** The constructor. `innerHeight` is the viewport height. */
  function NewLily(startX: real, startY: real, targetAngle: real, isMobile: bool, index: nat,
                   innerHeight: real): (l: Lily)
    requires innerHeight >= 0.0
    ensures Sprout(l) && Inv(l)
    // the five arguments are kept as given
    ensures l.startX == startX && l.startY == startY && l.targetAngle == targetAngle
    ensures l.isMobile == isMobile && l.index == index
    ensures l.speed == 2.0 && l.bloomSpeed == 0.01
    ensures l.color == Pinks[index % 3]
    ensures l.stemHeight == innerHeight * (if isMobile then 0.45 else 0.6)
    ensures l.finalBloomSize == (if isMobile then 0.9 else 1.2)
  {
    Lily(startX, startY, targetAngle, isMobile, index,
         Pinks[index % 3],
         if isMobile then innerHeight * 0.45 else innerHeight * 0.6, 0.0,
         0.0, if isMobile then 0.9 else 1.2,
         2.0, 0.01,
         [])
  }

  /** A lily as the constructor leaves it: nothing grown yet. */
  predicate Sprout(l: Lily) {
    l.currentLen == 0.0 && l.bloomSize == 0.0 && l.leaves == []
  }

  predicate Growing(l: Lily) {
    l.currentLen < l.stemHeight
  }

  /** The leaf test in `update`: the floored length is a multiple of 40. */
  predicate OnLeafMark(len: real) {
    len.Floor % LeafSpacing == 0
  }

  /** The index of the 40-unit interval a length falls in. */
  function Interval(len: real): int {
    (len / LeafSpacing as real).Floor
  }

  /** Leaves alternate sides: +0.6 in even intervals, -0.6 in odd ones. */
  function LeafOffset(len: real): (r: real)
    ensures r == 0.6 || r == -0.6
    ensures r == 0.6 <==> Interval(len) % 2 == 0
  {
    if Interval(len) % 2 == 0 then 0.6 else -0.6
  }

  /** One call of `update`. */
  function Update(l: Lily, u: real): (r: Lily)
    requires Unit(u)
    // only the three growth fields change
    ensures r.(currentLen := l.currentLen, bloomSize := l.bloomSize, leaves := l.leaves) == l
    // growing: the stem advances by exactly `speed` and the bloom waits
    ensures Growing(l) ==> r.currentLen == l.currentLen + l.speed && r.bloomSize == l.bloomSize
    // grown: the stem is frozen
    ensures !Growing(l) ==> r.currentLen == l.currentLen && r.leaves == l.leaves
    // the bloom moves only on a grown stem whose bloom is below its final size
    ensures r.bloomSize != l.bloomSize ==>
              !Growing(l) && l.bloomSize < l.finalBloomSize && r.bloomSize == l.bloomSize + l.bloomSpeed
    ensures !Growing(l) && l.bloomSize < l.finalBloomSize ==> r.bloomSize == l.bloomSize + l.bloomSpeed
    // leaves only grow, at most one per frame, and only on a leaf mark
    ensures l.leaves <= r.leaves && |r.leaves| <= |l.leaves| + 1
    ensures |r.leaves| == |l.leaves| + 1 <==> Growing(l) && OnLeafMark(r.currentLen)
    ensures |r.leaves| == |l.leaves| + 1 ==>
              var leaf := r.leaves[|l.leaves|];
              leaf.len == r.currentLen && leaf.offset == LeafOffset(leaf.len) && 0.5 <= leaf.size < 1.0
  {
    if l.currentLen < l.stemHeight then
      var len := l.currentLen + l.speed;
      l.(currentLen := len,
         leaves := if OnLeafMark(len) then l.leaves + [Leaf(len, LeafOffset(len), 0.5 + u * 0.5)] else l.leaves)
    else if l.bloomSize < l.finalBloomSize then
      l.(bloomSize := l.bloomSize + l.bloomSpeed)
    else
      l
  }

  // ---------------------------------------------------------------------------
  // The invariant of a growing lily

  /** The constants `update` relies on. */
  predicate WellFormed(l: Lily) {
    l.speed > 0.0 && l.bloomSpeed > 0.0 && l.stemHeight >= 0.0 && l.finalBloomSize > 0.0
  }

  predicate LeafOk(leaf: Leaf) {
    && 0.0 < leaf.len
    && OnLeafMark(leaf.len)
    && leaf.offset == LeafOffset(leaf.len)
    && 0.5 <= leaf.size < 1.0
  }

  /** What every lily reachable from its constructor satisfies:
      the stem overshoots its height by less than one step, the bloom is 0
      while the stem grows and overshoots its final size by less than one
      step, every leaf sits on a leaf mark at or below the tip, and leaves
      lie along the stem in order, at least one step apart. */
  predicate Inv(l: Lily) {
    && WellFormed(l)
    && 0.0 <= l.currentLen < l.stemHeight + l.speed
    && 0.0 <= l.bloomSize < l.finalBloomSize + l.bloomSpeed
    && (Growing(l) ==> l.bloomSize == 0.0)
    && (forall k :: 0 <= k < |l.leaves| ==> LeafOk(l.leaves[k]) && l.leaves[k].len <= l.currentLen)
    && (forall j, k :: 0 <= j < k < |l.leaves| ==> l.leaves[j].len + l.speed <= l.leaves[k].len)
  }

  lemma UpdateKeepsInv(l: Lily, u: real)
    requires Inv(l) && Unit(u)
    ensures Inv(Update(l, u))
  {
  }

  /** The state after a sequence of frames, one random draw per frame. */
  function Frames(l: Lily, us: seq<real>): (r: Lily)
    requires AllUnit(us)
    // frames never touch the constructor's fields
    ensures r.(currentLen := l.currentLen, bloomSize := l.bloomSize, leaves := l.leaves) == l
    decreases |us|
  {
    if |us| == 0 then l else Update(Frames(l, us[..|us| - 1]), us[|us| - 1])
  }

  /** Over any number of frames the invariant holds and the growth fields move
      one way only: the stem never shrinks, the bloom never shrinks, and the
      leaves seen so far stay as they are. */
  lemma {:induction false} FramesKeepInv(l: Lily, us: seq<real>)
    requires Inv(l)
    requires AllUnit(us)
    ensures Inv(Frames(l, us))
    ensures Frames(l, us).currentLen >= l.currentLen
    ensures Frames(l, us).bloomSize >= l.bloomSize
    ensures l.leaves <= Frames(l, us).leaves
    decreases |us|
  {
    if |us| > 0 {
      var prev := us[..|us| - 1];
      FramesKeepInv(l, prev);
      UpdateKeepsInv(Frames(l, prev), us[|us| - 1]);
    }
  }

  /** The bloom is drawn only when the stem is complete and the bloom is
      positive; on a reachable lily the first test is implied by the second. */
  predicate BloomVisible(l: Lily) {
    l.currentLen >= l.stemHeight && l.bloomSize > 0.0
  }

  lemma BloomVisibleIffOpened(l: Lily)
    requires Inv(l)
    ensures BloomVisible(l) <==> l.bloomSize > 0.0
  {
  }

  /** A lily with a complete stem and a full bloom is a fixed point. */
  lemma FullyOpenIsFixed(l: Lily, u: real)
    requires Unit(u)
    requires !Growing(l) && l.bloomSize >= l.finalBloomSize
    ensures Update(l, u) == l
  {
  }

  // ---------------------------------------------------------------------------
  // Leaf markers

  /** On a leaf mark the interval index is the floored length over 40. */
  lemma IntervalOnMark(x: real)
    requires x >= 0.0 && OnLeafMark(x)
    ensures Interval(x) * LeafSpacing == x.Floor
  {
  }

  /** Two leaf marks at least one unit apart lie in different intervals,
      the further one in the higher interval. */
  lemma MarksApart(a: real, b: real)
    requires 0.0 < a && OnLeafMark(a) && OnLeafMark(b) && a + 1.0 <= b
    ensures Interval(a) < Interval(b)
  {
    IntervalOnMark(a);
    IntervalOnMark(b);
    assert a.Floor < b.Floor;
  }

  /** With a step of at least one unit, no interval receives two leaves:
      interval indices strictly increase along the stem. */
  lemma LeavesInDistinctIntervals(l: Lily)
    requires Inv(l) && l.speed >= 1.0
    ensures forall j, k :: 0 <= j < k < |l.leaves| ==> Interval(l.leaves[j].len) < Interval(l.leaves[k].len)
  {
    forall j, k | 0 <= j < k < |l.leaves|
      ensures Interval(l.leaves[j].len) < Interval(l.leaves[k].len)
    {
      assert LeafOk(l.leaves[j]) && LeafOk(l.leaves[k]);
      MarksApart(l.leaves[j].len, l.leaves[k].len);
    }
  }

  /** The leaves a lily with a step of 2 has after `n` growing frames: one at
      every multiple of 40 up to the tip, sides alternating from the left. */
  predicate LeavesAtMarks(leaves: seq<Leaf>, n: nat) {
    && |leaves| == n / 20
    && forall j :: 0 <= j < |leaves| ==>
         leaves[j].len == (LeafSpacing * (j + 1)) as real
         && leaves[j].offset == (if (j + 1) % 2 == 0 then 0.6 else -0.6)
  }

  lemma IntervalOfMark(m: int)
    ensures ((LeafSpacing * m) as real).Floor == LeafSpacing * m
    ensures Interval((LeafSpacing * m) as real) == m
  {
  }

  /** One growing frame of a step-2 lily whose leaves sit at the marks. */
  lemma GrowOneFrame(p: Lily, u: real, n: nat)
    requires Unit(u) && p.speed == 2.0 && Growing(p)
    requires p.currentLen == (2 * n) as real && p.bloomSize == 0.0
    requires LeavesAtMarks(p.leaves, n)
    ensures Update(p, u).currentLen == (2 * (n + 1)) as real
    ensures Update(p, u).bloomSize == 0.0
    ensures LeavesAtMarks(Update(p, u).leaves, n + 1)
  {
  }

  /** From a sprout with the constructor's step of 2, frames taken while the
      stem is still below its height leave the tip at exactly `2n` and one
      leaf at each multiple of 40 passed, in order, alternating sides. */
  lemma {:induction false} SproutGrowth(l: Lily, us: seq<real>)
    requires Sprout(l) && l.speed == 2.0
    requires AllUnit(us)
    requires (2 * |us|) as real < l.stemHeight + 2.0
    ensures Frames(l, us).currentLen == (2 * |us|) as real
    ensures Frames(l, us).bloomSize == 0.0
    ensures LeavesAtMarks(Frames(l, us).leaves, |us|)
    decreases |us|
  {
    if |us| > 0 {
      var n := |us| - 1;
      var prev := us[..n];
      assert (2 * |us|) as real == (2 * n) as real + 2.0;
      SproutGrowth(l, prev);
      var p := Frames(l, prev);
      assert p.stemHeight == l.stemHeight && p.speed == 2.0;
      GrowOneFrame(p, us[n], n);
    }
  }

  /** The stem does not stop exactly at its height: on a desktop viewport 835
      high the height is 501, and the 251st frame carries the tip to 502,
      where it then stays. */
  lemma StemOvershootsHeight(us: seq<real>, u: real)
    requires |us| == 251 && AllUnit(us)
    requires Unit(u)
    ensures var l := Frames(NewLily(0.0, 0.0, 0.0, false, 0, 835.0), us);
            l.stemHeight == 501.0 && l.currentLen == 502.0 && Update(l, u).currentLen == 502.0
  {
    SproutGrowth(NewLily(0.0, 0.0, 0.0, false, 0, 835.0), us);
  }
}

=== FILE: Page.dfy ===
/**
  The whole page as one state record: the quiz globals, the physics world's
  body list, the final scene and the firefly field, driven by the four things
  that change them (the envelope, a quiz button, the "yes" button, and a
  frame of the bouquet loop). The viewport is fixed; resizing is not modelled.
 */
module Page {
  import Random
  import QuizFlow
  import Explosion
  import Bouquet
  import Fireflies

  datatype Viewport = Viewport(width: real, height: real)

  datatype Page = Page(
    app: QuizFlow.App,
    world: seq<Explosion.Body>,
    worldRunning: bool,
    scene: Bouquet.Scene,
    fireflies: seq<Fireflies.Firefly>,
    view: Viewport)

  datatype Event =
    | OpenEnvelope(draws: seq<Explosion.Draw>)
    | PickAnswer(raw: string)
    | SayYes(up: real, lilyDraws: seq<real>, fireflyDraws: seq<Fireflies.Draw>)
    | Frame(lilyDraws: seq<real>, fireflyDraws: seq<Fireflies.Draw>)

  predicate ViewOk(v: Viewport) {
    v.width >= 0.0 && v.height >= 0.0
  }

  function Loaded(v: Viewport): (p: Page)
    requires ViewOk(v)
    ensures Inv(p)
  {
    Page(QuizFlow.Start, [], true, Bouquet.Idle, [], v)
  }

  /** The random input an event needs is there and in range. */
  predicate EventOk(p: Page, e: Event) {
    match e
    case OpenEnvelope(draws) => |draws| == Explosion.FlowerCount && Explosion.AllDrawsOk(draws)
    case PickAnswer(_) => true
    case SayYes(_, lilyDraws, fireflyDraws) =>
      !p.scene.animationStarted ==> FrameDrawsOk(p, lilyDraws, fireflyDraws)
    case Frame(lilyDraws, fireflyDraws) => FrameDrawsOk(p, lilyDraws, fireflyDraws)
  }

  /** The draws of one frame of the bouquet loop. */
  predicate FrameDrawsOk(p: Page, lilyDraws: seq<real>, fireflyDraws: seq<Fireflies.Draw>) {
    && |lilyDraws| == |p.scene.lilies| && Random.AllUnit(lilyDraws)
    && (|p.fireflies| == 0 ==> Fireflies.SwarmDraws(fireflyDraws))
  }

  /** The page after one event. Opening the envelope adds an explosion only
      when the handler gets past showing the first step; "yes" clears and
      stops the world and starts the bouquet, whose first frame (fireflies,
      then the lilies already there) runs inside the click when the loop was
      not yet running; a frame does nothing until the bouquet loop has been
      started. */
  function Dispatch(p: Page, e: Event): (r: Page)
    requires ViewOk(p.view) && EventOk(p, e)
    ensures r.view == p.view
    // bodies are only ever added, until "yes" clears the world
    ensures p.world <= r.world || (e.SayYes? && r.world == [])
    // once stopped, the world is never restarted
    ensures r.worldRunning ==> p.worldRunning && !e.SayYes?
    ensures !e.SayYes? ==> r.worldRunning == p.worldRunning
    // "yes" runs its handler and `startTreeAnimation`
    ensures e.SayYes? ==>
              (r.app == QuizFlow.SayYes(p.app).app
               && r.scene == Bouquet.StartTreeAnimation(p.scene, p.view.width, p.view.height, e.up, e.lilyDraws))
    // the envelope runs its handler and adds one explosion
    ensures e.OpenEnvelope? ==>
              (r.app == QuizFlow.OpenEnvelope(QuizFlow.QuizSteps, p.app).app
               && r.world == p.world + Explosion.Layout(e.draws, p.view.width, p.view.height))
    // a frame touches neither the quiz nor the world
    ensures e.Frame? ==> (r.app == p.app && r.world == p.world)
    // a started bouquet loop is never stopped, and frames before it do nothing
    ensures p.scene.animationStarted ==> r.scene.animationStarted
    ensures e.Frame? && !p.scene.animationStarted ==> r == p
    // a frame of a running loop, and the frame a first "yes" runs, move every
    // firefly and (for a frame) every lily
    ensures e.Frame? && p.scene.animationStarted ==>
              r.scene == Bouquet.Tick(p.scene, e.lilyDraws)
              && r.fireflies == Fireflies.FireflyFrame(p.fireflies, e.fireflyDraws, p.view.width, p.view.height)
    ensures e.SayYes? ==>
              r.fireflies == (if p.scene.animationStarted then p.fireflies
                              else Fireflies.FireflyFrame(p.fireflies, e.fireflyDraws, p.view.width, p.view.height))
    // the quiz globals move exactly as the matching handler moves them
    ensures e.PickAnswer? ==> r.app == QuizFlow.Answer(QuizFlow.QuizSteps, p.app, e.raw).app
  {
    match e
    case OpenEnvelope(draws) =>
      var o := QuizFlow.OpenEnvelope(QuizFlow.QuizSteps, p.app);
      p.(app := o.app,
         world := if o.effect.Show? then p.world + Explosion.Layout(draws, p.view.width, p.view.height) else p.world)
    case PickAnswer(raw) =>
      p.(app := QuizFlow.Answer(QuizFlow.QuizSteps, p.app, raw).app)
    case SayYes(up, lilyDraws, fireflyDraws) =>
      p.(app := QuizFlow.SayYes(p.app).app, world := [], worldRunning := false,
         fireflies := if p.scene.animationStarted then p.fireflies
                      else Fireflies.FireflyFrame(p.fireflies, fireflyDraws, p.view.width, p.view.height),
         scene := Bouquet.StartTreeAnimation(p.scene, p.view.width, p.view.height, up, lilyDraws))
    case Frame(lilyDraws, fireflyDraws) =>
      if !p.scene.animationStarted then p
      else p.(fireflies := Fireflies.FireflyFrame(p.fireflies, fireflyDraws, p.view.width, p.view.height),
              scene := Bouquet.Tick(p.scene, lilyDraws))
  }

  /** What every reachable page satisfies. */
  predicate Inv(p: Page) {
    && ViewOk(p.view)
    && QuizFlow.Inv(QuizFlow.QuizSteps, p.app)
    // bodies arrive in whole explosions of 80
    && |p.world| % 80 == 0
    // the final phase has the bouquet loop running, once
    && Bouquet.SceneInv(p.scene)
    && (p.app.phase == QuizFlow.Final ==> p.scene.animationStarted)
    // the firefly field exists exactly when the bouquet loop runs, 80 strong, inside the canvas
    && |p.fireflies| == (if p.scene.animationStarted then Fireflies.SwarmSize else 0)
    && (forall k :: 0 <= k < |p.fireflies| ==> Fireflies.InBounds(p.fireflies[k], p.view.width, p.view.height))
  }

  lemma ExplosionSize(draws: seq<Explosion.Draw>, width: real, height: real)
    requires |draws| == Explosion.FlowerCount && Explosion.AllDrawsOk(draws)
    ensures |Explosion.Layout(draws, width, height)| == 80
  {
    Explosion.LayoutCounts(draws, width, height);
    Explosion.CountsCover(Explosion.Layout(draws, width, height));
  }

  /** Every event keeps the page invariant. */
  lemma DispatchKeepsInv(p: Page, e: Event)
    requires Inv(p) && EventOk(p, e)
    ensures Inv(Dispatch(p, e))
  {
    match e
    case OpenEnvelope(draws) =>
      ExplosionSize(draws, p.view.width, p.view.height);
    case PickAnswer(raw) =>
      QuizFlow.DispatchKeepsInv(QuizFlow.QuizSteps, p.app, QuizFlow.ClickAnswer(raw));
    case SayYes(up, lilyDraws, fireflyDraws) =>
    case Frame(lilyDraws, fireflyDraws) =>
      if p.scene.animationStarted {
        Bouquet.TickKeepsInv(p.scene, lilyDraws);
      }
  }

  /** "Yes" is the terminal trigger: whatever came before, afterwards the
      phase is final, the world is empty and stopped, and exactly one bouquet
      loop runs. The first "yes" also spawns the 80 fireflies. */
  lemma YesTearsDownWorld(p: Page, e: Event)
    requires Inv(p) && e.SayYes? && EventOk(p, e)
    ensures var r := Dispatch(p, e);
            r.app.phase == QuizFlow.Final && r.world == [] && !r.worldRunning
            && r.scene.animationStarted && r.scene.loops == 1
            && |r.fireflies| == Fireflies.SwarmSize
  {
  }

  /** Opening the envelope from the loaded page shows the first quiz step and
      spawns one explosion of 80 bodies. */
  lemma FirstEnvelope(v: Viewport, draws: seq<Explosion.Draw>)
    requires ViewOk(v)
    requires |draws| == Explosion.FlowerCount && Explosion.AllDrawsOk(draws)
    ensures var r := Dispatch(Loaded(v), OpenEnvelope(draws));
            r.app == QuizFlow.App(QuizFlow.Quiz, 0) && |r.world| == 80
  {
    ExplosionSize(draws, v.width, v.height);
  }
}

=== FILE: Quiz.dfy ===
/**
  The application phase and the quiz: the global `state` string, the ordered
  list of quiz steps with their accepted answers, `currentQuizIndex`, and the
  three click handlers that write them (envelope, quiz button, "yes" button).
  Panel fades and the shake animation are reduced to an `Effect` value.
 */
module QuizFlow {

  /** The values of the global `state` variable. */
  datatype Phase = Initial | Quiz | Question | Final

  /** One quiz step: the id of its panel and the answers it accepts. */
  datatype QuizStep = QuizStep(id: string, correct: seq<string>)

  /** The quiz as shipped: four steps, the last one accepting two names. */
  const QuizSteps: seq<QuizStep> := [
    QuizStep("quiz-q1", ["9/9/23"]),
    QuizStep("quiz-q2", ["green"]),
    QuizStep("quiz-q3", ["cat"]),
    QuizStep("quiz-q4", ["nikolette", "nicole"])
  ]

  /** The mutable globals the handlers share. */
  datatype App = App(phase: Phase, quizIndex: nat)

  const Start: App := App(Initial, 0)

  /** What a handler asks the UI layer to do. `Fault` is a handler that throws
      (a `TypeError` from reading a property of `undefined`). */
  datatype Panel = StepPanel(id: string) | QuestionPanel | FinalScene
  datatype Effect = Show(panel: Panel) | Shake | Fault
  datatype Outcome = Outcome(app: App, effect: Effect)

  datatype Event = ClickEnvelope | ClickAnswer(raw: string) | ClickYes

  // ---------------------------------------------------------------------------
  // Lower-casing

  predicate IsUpper(c: char) {
    'A' <= c <= 'Z'
  }

  /** True when no character of `s` is an upper-case letter. */
  predicate IsLower(s: string) {
    forall k :: 0 <= k < |s| ==> !IsUpper(s[k])
  }

  function LowerChar(c: char): (r: char)
    ensures !IsUpper(r)
    ensures !IsUpper(c) ==> r == c
  {
    if IsUpper(c) then (c as int + 32) as char else c
  }

  /** `String.prototype.toLowerCase`, restricted to the ASCII letters. */
  function ToLower(s: string): (r: string)
    ensures |r| == |s|
    ensures IsLower(r)
    ensures forall k :: 0 <= k < |s| ==> r[k] == LowerChar(s[k])
  {
    if |s| == 0 then [] else [LowerChar(s[0])] + ToLower(s[1..])
  }

  /** A string without upper-case letters is its own lower-case form. */
  lemma LowerFixesLower(s: string)
    requires IsLower(s)
    ensures ToLower(s) == s
  {
  }

  /** Lower-casing twice is lower-casing once. */
  lemma LowerIdempotent(s: string)
    ensures ToLower(ToLower(s)) == ToLower(s)
  {
  }

  predicate EqualIgnoringCase(a: string, b: string) {
    ToLower(a) == ToLower(b)
  }

  /** The test the click handler applies: the lower-cased button answer is
      one of the step's accepted answers. */
  predicate Accepts(step: QuizStep, raw: string) {
    ToLower(raw) in step.correct
  }

  /** Every accepted answer of every step is written in lower case. */
  predicate AnswersLower(steps: seq<QuizStep>) {
    forall j, a :: 0 <= j < |steps| && a in steps[j].correct ==> IsLower(a)
  }

  /** Matching is case-insensitive: when every accepted answer is lower case,
      a step accepts exactly the strings that equal some accepted answer up
      to case. */
  lemma AcceptsIgnoringCase(step: QuizStep, raw: string)
    requires forall a :: a in step.correct ==> IsLower(a)
    ensures Accepts(step, raw) <==> exists a :: a in step.correct && EqualIgnoringCase(raw, a)
  {
    if Accepts(step, raw) {
      var a := ToLower(raw);
      LowerIdempotent(raw);
      assert a in step.correct && EqualIgnoringCase(raw, a);
    }
    if exists a :: a in step.correct && EqualIgnoringCase(raw, a) {
      var a :| a in step.correct && EqualIgnoringCase(raw, a);
      LowerFixesLower(a);
    }
  }

  lemma QuizStepsLower()
    ensures AnswersLower(QuizSteps)
  {
  }

  /** Upper-case input matches: "GREEN" is accepted by the colour step. */
  lemma ShoutedGreenAccepted()
    ensures Accepts(QuizSteps[1], "GREEN")
    ensures !Accepts(QuizSteps[1], "GREY")
  {
    assert ToLower("GREEN") == "green";
    assert ToLower("GREY") == "grey";
  }

  // ---------------------------------------------------------------------------
  // Handlers

  /** The envelope handler: sets the phase to `Quiz` and shows the first step.
      The phase is written before `steps[0]` is read, so an empty quiz still
      changes the phase before the handler throws. The index is not reset. */
  function OpenEnvelope(steps: seq<QuizStep>, app: App): (r: Outcome)
    ensures r.app.phase == Quiz && r.app.quizIndex == app.quizIndex
    ensures |steps| > 0 ==> r.effect == Show(StepPanel(steps[0].id))
    ensures |steps| == 0 ==> r.effect == Fault
  {
    Outcome(App(Quiz, app.quizIndex), if |steps| > 0 then Show(StepPanel(steps[0].id)) else Fault)
  }

  /** The quiz-button handler. It does not look at the phase. */
  function Answer(steps: seq<QuizStep>, app: App, raw: string): (r: Outcome)
    // past the end, `steps[i]` is undefined and the handler throws, changing nothing
    ensures app.quizIndex >= |steps| ==> r == Outcome(app, Fault)
    // a rejected answer shakes the button and changes nothing
    ensures app.quizIndex < |steps| && !Accepts(steps[app.quizIndex], raw) ==> r == Outcome(app, Shake)
    // an accepted answer advances by exactly one step
    ensures app.quizIndex < |steps| && Accepts(steps[app.quizIndex], raw) ==> r.app.quizIndex == app.quizIndex + 1
    ensures r.app.quizIndex <= |steps| || r.app == app
    // an accepted answer short of the last step keeps the phase and shows the next step
    ensures app.quizIndex + 1 < |steps| && Accepts(steps[app.quizIndex], raw) ==>
              r == Outcome(App(app.phase, app.quizIndex + 1), Show(StepPanel(steps[app.quizIndex + 1].id)))
    // an accepted answer to the last step enters `Question` with the quiz complete
    ensures app.quizIndex + 1 == |steps| && Accepts(steps[app.quizIndex], raw) ==>
              r == Outcome(App(Question, |steps|), Show(QuestionPanel))
    // the phase changes only to `Question`, and only on the last step's accepted answer
    ensures r.app.phase != app.phase ==>
              r.app.phase == Question && app.quizIndex + 1 == |steps| && Accepts(steps[app.quizIndex], raw)
    ensures r.effect == Show(QuestionPanel) <==>
              app.quizIndex + 1 == |steps| && Accepts(steps[app.quizIndex], raw)
    ensures r.effect == Show(QuestionPanel) ==> r.app == App(Question, |steps|)
    // an advance short of the end shows the step the index now points to
    ensures r.effect.Show? && r.effect.panel.StepPanel? ==>
              r.app.quizIndex < |steps| && r.effect.panel.id == steps[r.app.quizIndex].id
  {
    var i := app.quizIndex;
    if i >= |steps| then Outcome(app, Fault)
    else if !Accepts(steps[i], raw) then Outcome(app, Shake)
    else if i + 1 < |steps| then Outcome(App(app.phase, i + 1), Show(StepPanel(steps[i + 1].id)))
    else Outcome(App(Question, i + 1), Show(QuestionPanel))
  }

  /** The "yes" handler: the phase becomes `Final` unconditionally. */
  function SayYes(app: App): (r: Outcome)
    ensures r.app.phase == Final && r.app.quizIndex == app.quizIndex
    ensures r.effect == Show(FinalScene)
  {
    Outcome(App(Final, app.quizIndex), Show(FinalScene))
  }

  function Dispatch(steps: seq<QuizStep>, app: App, e: Event): Outcome {
    match e
    case ClickEnvelope => OpenEnvelope(steps, app)
    case ClickAnswer(raw) => Answer(steps, app, raw)
    case ClickYes => SayYes(app)
  }

  /** What every reachable state satisfies: the index never passes the end of
      the quiz, and the `Question` phase is only entered with the quiz done. */
  predicate Inv(steps: seq<QuizStep>, app: App) {
    && app.quizIndex <= |steps|
    && (app.phase == Question ==> app.quizIndex == |steps|)
  }

  /** Every handler keeps `Inv`, whatever order the clicks come in. */
  lemma DispatchKeepsInv(steps: seq<QuizStep>, app: App, e: Event)
    requires Inv(steps, app)
    ensures Inv(steps, Dispatch(steps, app, e).app)
  {
  }

  /** The state after a sequence of clicks. */
  function Run(steps: seq<QuizStep>, app: App, events: seq<Event>): App
    decreases |events|
  {
    if |events| == 0 then app
    else Dispatch(steps, Run(steps, app, events[..|events| - 1]), events[|events| - 1]).app
  }

  lemma {:induction false} RunKeepsInv(steps: seq<QuizStep>, app: App, events: seq<Event>)
    requires Inv(steps, app)
    ensures Inv(steps, Run(steps, app, events))
    decreases |events|
  {
    if |events| > 0 {
      RunKeepsInv(steps, app, events[..|events| - 1]);
      DispatchKeepsInv(steps, Run(steps, app, events[..|events| - 1]), events[|events| - 1]);
    }
  }

  function AnswerEvents(answers: seq<string>): (r: seq<Event>)
    ensures |r| == |answers|
    ensures forall k :: 0 <= k < |r| ==> r[k] == ClickAnswer(answers[k])
  {
    seq(|answers|, k requires 0 <= k < |answers| => ClickAnswer(answers[k]))
  }

  /** Answering the steps in order, each with an accepted answer, walks the
      index up one step per click; the phase stays `Quiz` until the last
      step is answered and is `Question` exactly then. */
  lemma {:induction false} CorrectAnswersReachQuestion(steps: seq<QuizStep>, answers: seq<string>)
    requires |answers| <= |steps|
    requires forall k :: 0 <= k < |answers| ==> Accepts(steps[k], answers[k])
    ensures Run(steps, App(Quiz, 0), AnswerEvents(answers)).quizIndex == |answers|
    ensures Run(steps, App(Quiz, 0), AnswerEvents(answers)).phase ==
              (if |answers| == |steps| && |steps| > 0 then Question else Quiz)
    decreases |answers|
  {
    var evs := AnswerEvents(answers);
    if |answers| > 0 {
      var n := |answers| - 1;
      assert evs[..n] == AnswerEvents(answers[..n]);
      CorrectAnswersReachQuestion(steps, answers[..n]);
      var before := Run(steps, App(Quiz, 0), evs[..n]);
      assert before == App(Quiz, n);
      assert evs[n] == ClickAnswer(answers[n]);
    }
  }

  /** A wrong answer, at any point, leaves the phase and the index alone. */
  lemma {:induction false} WrongAnswerChangesNothing(steps: seq<QuizStep>, app: App, raw: string)
    requires app.quizIndex < |steps| && !Accepts(steps[app.quizIndex], raw)
    ensures Dispatch(steps, app, ClickAnswer(raw)).app == app
    ensures Dispatch(steps, app, ClickAnswer(raw)).effect == Shake
  {
  }

  /** The whole flow of the shipped quiz, with answers typed in mixed case:
      the envelope opens step one, and four accepted answers reach `Question`. */
  lemma ShippedQuizFlow()
    ensures OpenEnvelope(QuizSteps, Start) == Outcome(App(Quiz, 0), Show(StepPanel("quiz-q1")))
    ensures Run(QuizSteps, App(Quiz, 0), AnswerEvents(["9/9/23", "GREEN", "Cat", "NICOLE"])) == App(Question, 4)
  {
    var answers := ["9/9/23", "GREEN", "Cat", "NICOLE"];
    assert ToLower(answers[0]) == "9/9/23";
    assert ToLower(answers[1]) == "green";
    assert ToLower(answers[2]) == "cat";
    assert ToLower(answers[3]) == "nicole";
    CorrectAnswersReachQuestion(QuizSteps, answers);
  }
}

=== FILE: Random.dfy ===
/**
  The one source of randomness in the page: each `Math.random()` call is an
  input of the model, a real in [0, 1).
 */
module Random {

  /** A single `Math.random()` draw. */
  predicate Unit(u: real) {
    0.0 <= u < 1.0
  }

  /** One draw per element, e.g. one per lily in a frame. */
  predicate AllUnit(us: seq<real>) {
    forall k :: 0 <= k < |us| ==> Unit(us[k])
  }
}
